=== FILE: README.md ===
# Minu M5StickC-Plus2 example: the UI coordination logic in Dafny

The M5StickC-Plus2 example of the Minu menu library runs four FreeRTOS tasks
around one menu:

- a button task that turns press and release edges into pending short- and
  long-press flags;
- a screen-watch task (the UI controller) that consumes those flags, moves the
  highlight or runs the highlighted item's link, and asks for a render;
- a screen-update task that waits on its task notification and draws;
- a data-update task, started and stopped by page callbacks, that prints the
  time or fob information or pings a list of targets.

This project models each task's loop body as a pure step function over one
immutable record of shared state (`Device.World`): the menu, the notification
value of the screen-update task, the data-update task handle together with a
history of its creations and deletions, and the ping targets.  Network, radio,
clock and display are inputs or are left out.

Modules, following the structure of `ui.cpp`:

- `Clock`: the target's 32-bit `millis()` counter and 32-bit `long`.
- `Buttons`: `buttonWatchTask`.
- `Controller`: one iteration of `screenWatchTask`, generic over the world and
  the menu operations, so its properties hold for any menu implementation.
- `RenderSignal`: the `xTaskNotify` / `ulTaskNotifyTake` pair as a one-slot
  mailbox.
- `Minu`: the few menu-library operations the example uses (`minu.hpp` is not
  part of this model).
- `Device`: page ids, targets, the world record and the render request.
- `PingSweep`: `updatePingTargetsStatus`.
- `Worker`: `startDataUpdate`, `stopDataUpdate` and the dispatch in
  `dataUpdateTask`.
- `Pages`: the page callbacks `uiMenuInit` installs, `goToPage`, the item
  links, `updateWiFiItem` and `startWiFiScan`.
- `System`: `uiMenuInit`, one pass of the screen-update and data-update
  tasks, the controller on the device's world, and the invariant `Coherent`
  that every step keeps.

Assumptions about the menu library, whose source is not part of this model:

- `highlightNextItem` is opaque (`Minu.Library`); at most it is assumed to land
  on an item of the page or on -1.
- `highlightItem(i)` selects `i` only when the page has an item `i`.
- `addItem` appends and keeps the highlight.
- `removeAllItems` leaves an empty page with nothing highlighted.
- `goToPage` runs the old page's closed callback, makes the new page current
  and not yet rendered, then runs the new page's opened callback.
- `render` marks the menu rendered and runs the page's rendered callback. An
  item's on-highlight render callback (the fourth `addItem` argument) runs when
  that item is drawn highlighted, so the home page's Wi-Fi item is recoloured
  by `updateWiFiItem` only while it is the highlighted item.
- Changing a page's items does not clear the menu's rendered flag; only
  `goToPage` does.
- Page ids are 0 to 5 in the order `uiMenuInit` adds the pages.

## Model

| member | source | states |
|---|---|---|
| Clock.WrapLong | examples/Minu_Example_M5Stick-CPlus2/ui.cpp:50-53 | the `long` result has the same low 32 bits as the exact value, and values already in range are unchanged |
| Clock.FromMillis | examples/Minu_Example_M5Stick-CPlus2/ui.cpp:530 | storing `millis()` in `currentTime` keeps counts below 2^31 and turns larger counts negative |
| Clock.ElapsedMs | examples/Minu_Example_M5Stick-CPlus2/ui.cpp:551 | unsigned 32-bit elapsed time is congruent to `now - down` and equals it when no wrap lies between |
| Clock.ElapsedAfterAdvance | examples/Minu_Example_M5Stick-CPlus2/ui.cpp:530-536 | advancing any `long` by `e` ms with wrap-around and measuring again gives back exactly `e` |
| Buttons.Classify | examples/Minu_Example_M5Stick-CPlus2/ui.cpp:534-549 | a release is long iff the hold strictly exceeds 300 ms (corrected test; see ## Findings) |
| Buttons.Raise | examples/Minu_Example_M5Stick-CPlus2/ui.cpp:538-545 | a release raises the flag of its kind and leaves the down time and the other flag alone |
| Buttons.Observe | examples/Minu_Example_M5Stick-CPlus2/ui.cpp:531-553 | a press edge records the time; a release raises the flag of the hold's class measured from the recorded time, leaving the other kind's flag alone; no release leaves the flags alone (corrected test; see ## Findings) |
| Buttons.Poll | examples/Minu_Example_M5Stick-CPlus2/ui.cpp:529-577 | each button is observed with its own edges at the same `currentTime`, so one button's edges never touch the other, and a button without edges is unchanged (corrected test; see ## Findings) |
| Buttons.ReleaseRaisesExactlyOne | examples/Minu_Example_M5Stick-CPlus2/ui.cpp:534-549 | from no pending event, a release raises exactly one flag, the long one iff the hold exceeded the threshold |
| Buttons.ThresholdBoundary | examples/Minu_Example_M5Stick-CPlus2/config.h:63 | a hold of exactly 300 ms is short and 301 ms is long, wherever on the counter the press lies |
| Buttons.SameTickIsShort | examples/Minu_Example_M5Stick-CPlus2/ui.cpp:531-549 | a press and release in one poll are a short press with down time now |
| Buttons.SecondReleaseIsLost | examples/Minu_Example_M5Stick-CPlus2/ui.cpp:534-549 | a second release of an already pending kind changes no flag: events are not counted |
| Buttons.LongPressDependsOnlyOnHold | examples/Minu_Example_M5Stick-CPlus2/ui.cpp:536 | the corrected test depends only on the hold's length, across counter wrap |
| Buttons.AsWrittenAgreesWithoutOverflow | examples/Minu_Example_M5Stick-CPlus2/ui.cpp:536 | away from the wrap, the source's comparison, the corrected test and the unbounded `down + 300 < now` coincide |
| Buttons.AsWrittenShortTapReadAsLong | examples/Minu_Example_M5Stick-CPlus2/ui.cpp:536 | as written, a 50 ms tap just before `long` overflows is classified long |
| Buttons.AsWrittenLongHoldReadAsShort | examples/Minu_Example_M5Stick-CPlus2/ui.cpp:560 | as written, a 450 ms hold across `millis()` passing 2^31 is classified short |
| RenderSignal.Notify | examples/Minu_Example_M5Stick-CPlus2/ui.cpp:506 | a send overwrites the value with 1 whatever it held |
| RenderSignal.Take | examples/Minu_Example_M5Stick-CPlus2/ui.cpp:629 | a take blocks exactly when the value is 0, else returns it and leaves it one lower |
| RenderSignal.TakeFromSingleSlot | examples/Minu_Example_M5Stick-CPlus2/ui.cpp:629-636 | with at most one pending request, every take that returns draws and empties the slot |
| RenderSignal.NoBacklog | examples/Minu_Example_M5Stick-CPlus2/ui.cpp:627-637 | over any interleaving of sends and takes the value never exceeds 1 |
| RenderSignal.RendersBounded | examples/Minu_Example_M5Stick-CPlus2/ui.cpp:627-637 | renders never outnumber takes, nor sends plus the request already pending |
| RenderSignal.IdleReceivesRenderNothing | examples/Minu_Example_M5Stick-CPlus2/ui.cpp:629 | takes on an empty slot draw nothing |
| RenderSignal.BurstRendersOnce | examples/Minu_Example_M5Stick-CPlus2/ui.cpp:629-636 | any burst of one or more sends followed by one or more takes draws exactly once and leaves the slot empty |
| Controller.Start | examples/Minu_Example_M5Stick-CPlus2/ui.cpp:434-437 | at task start the bookkeeping names the current page and highlighted item and owes no render |
| Controller.AdvanceOnShortA | examples/Minu_Example_M5Stick-CPlus2/ui.cpp:443-454 | short A replaces the world by `highlightNextItem` of it, clears its flag, and owes a render iff the new index differs from the one last seen |
| Controller.ActivateOnSelect | examples/Minu_Example_M5Stick-CPlus2/ui.cpp:457-474 | long A or short B clear both flags and keep both down times; the link runs exactly when an item is highlighted and has one, and otherwise the world is unchanged |
| Controller.DismissLongB | examples/Minu_Example_M5Stick-CPlus2/ui.cpp:477-480 | long B is cleared; the world, the bookkeeping, button A, and B's short flag and down time are unchanged |
| Controller.Track | examples/Minu_Example_M5Stick-CPlus2/ui.cpp:483-499 | afterwards the bookkeeping names the current page and highlighted index |
| Controller.RequestRender | examples/Minu_Example_M5Stick-CPlus2/ui.cpp:501-509 | a render is requested iff one is owed or the menu is not drawn, and nothing is owed afterwards |
| Controller.Cycle | examples/Minu_Example_M5Stick-CPlus2/ui.cpp:440-509 | all four flags are consumed, the menu undergoes exactly the `Navigate` operations, the bookkeeping is in sync with the result, and the render decision is characterised both ways |
| Controller.IdleCycleChangesNothing | examples/Minu_Example_M5Stick-CPlus2/ui.cpp:440-509 | with nothing pending, in-sync bookkeeping and a drawn menu, a cycle is the identity and requests nothing |
| Controller.ShortPressRendersOnlyOnChange | examples/Minu_Example_M5Stick-CPlus2/ui.cpp:449-451 | a lone short A requests a render iff the highlight moved or the menu needs drawing |
| Controller.SelectRunsLinkOnce | examples/Minu_Example_M5Stick-CPlus2/ui.cpp:457-474 | long A and short B pending together run the link once |
| Controller.DoubleTapBeforeCycleAdvancesOnce | examples/Minu_Example_M5Stick-CPlus2/ui.cpp:531-549 | two short taps of A, each a press then a release, seen before a cycle leave the same state, and the same cycle, as the second tap alone: the short-press flag is set once, not counted |
| Device.RequestRender | examples/Minu_Example_M5Stick-CPlus2/ui.cpp:262-263 | a request sets the value to 1 when the screen-update task exists and is dropped otherwise; nothing else changes |
| PingSweep.SweepLogOrder | examples/Minu_Example_M5Stick-CPlus2/ui.cpp:230-245 | the sweep pings target `i` at step `2i` and notifies right after, in index order, one notify per target |
| PingSweep.SweepLogSilent | examples/Minu_Example_M5Stick-CPlus2/ui.cpp:243-244 | without a screen-update task the sweep pings every target in order and notifies nothing |
| PingSweep.UpdatePingTargetsStatus | examples/Minu_Example_M5Stick-CPlus2/ui.cpp:225-246 | every target ends pinged with its own address's result; item `i` is green iff that result, else red; other items, pages, highlight and task handle are unchanged; the event log is the reference log |
| PingSweep.Sweep | examples/Minu_Example_M5Stick-CPlus2/ui.cpp:230-245 | the loop itself, with the same per-index guarantees |
| Worker.UpdateTypeFor | examples/Minu_Example_M5Stick-CPlus2/ui.cpp:252-266 | time, fob-info and ping pages map to their kinds, and every other page to none, both ways |
| Worker.AtMostOneWorker | examples/Minu_Example_M5Stick-CPlus2/ui.cpp:268-270 | a history that replays cleanly never had more than one task alive, and ends with one live task exactly when the handle is set |
| Worker.StopDataUpdate | examples/Minu_Example_M5Stick-CPlus2/ui.cpp:215-222 | the handle is null afterwards; a live task is deleted and logged; nothing else changes |
| Worker.StopIsIdempotent | examples/Minu_Example_M5Stick-CPlus2/ui.cpp:215-222 | stopping twice is stopping once |
| Worker.Restart | examples/Minu_Example_M5Stick-CPlus2/ui.cpp:268-270 | the operations of a restart: deletions only, then the creation last |
| Worker.StartDataUpdate | examples/Minu_Example_M5Stick-CPlus2/ui.cpp:249-271 | on other pages nothing changes; on a data page the old task is deleted before the page's kind is created; on the ping page item 0 is highlighted and a render requested |
| Worker.DataUpdate | examples/Minu_Example_M5Stick-CPlus2/ui.cpp:602-615 | the time and fob-info kinds leave the world as it is; the ping kind marks every target pinged with its oracle result and keeps its other fields, colours item i of the ping page green or red by that result, and leaves a render pending when the screen task exists and there is a target; the ping page's highlight and the items after the targets are unchanged, and only the ping page may change |
| Pages.HooksOf | examples/Minu_Example_M5Stick-CPlus2/ui.cpp:356-405 | which pages start, stop and clear on open, close and render, and which highlight their first item on open (every page but the ping page, whose `startDataUpdate` does it), each both ways |
| Pages.PageOpened | examples/Minu_Example_M5Stick-CPlus2/ui.cpp:97-104 | highlights item 0 of the page it is handed when the page has items, touches no other page, and does nothing for null |
| Pages.DeleteAllPageItems | examples/Minu_Example_M5Stick-CPlus2/ui.cpp:304-311 | empties the page it is handed and nothing else; null does nothing |
| Pages.RunHook | examples/Minu_Example_M5Stick-CPlus2/ui.cpp:356-405 | any installed callback keeps the world well formed and the task history clean |
| Pages.GoToPage | examples/Minu_Example_M5Stick-CPlus2/ui.cpp:65-92 | the new page is current and undrawn with item 0 highlighted when it has items, and the world stays well formed with a clean task history |
| Pages.PageChangeHandsOverWorker | examples/Minu_Example_M5Stick-CPlus2/ui.cpp:384-405 | a page change first deletes the old page's task, creates a task only on the ping page, and leaves the live task owned by the page on screen |
| Pages.PageChangeClearsScanPage | examples/Minu_Example_M5Stick-CPlus2/ui.cpp:378-382 | the scan-result page stays empty while it is not on screen |
| Pages.WiFiIndicator | examples/Minu_Example_M5Stick-CPlus2/ui.cpp:133-151 | green iff AP mode or connected STA, red iff unconnected STA, grey iff any other mode |
| Pages.UpdateWiFiItem | examples/Minu_Example_M5Stick-CPlus2/ui.cpp:133-151 | recolours the item it is handed and nothing else; null does nothing |
| Pages.NatToDecimal | examples/Minu_Example_M5Stick-CPlus2/ui.cpp:342 | a non-empty string of decimal digits that spells the number, with no leading zero |
| Pages.IntToDecimal | examples/Minu_Example_M5Stick-CPlus2/ui.cpp:342 | a leading minus iff the RSSI is negative, followed by the decimal text of its magnitude (digits only, no leading zero) |
| Pages.AddFound | examples/Minu_Example_M5Stick-CPlus2/ui.cpp:341-342 | appends the item built for each of the first `n` networks, in scan order, and keeps the existing items and the highlight |
| Pages.PopulateScanResults | examples/Minu_Example_M5Stick-CPlus2/ui.cpp:333-348 | `n > 0` appends the `n` networks in order; for any `n` the back item comes last |
| Pages.AwaitRendered | examples/Minu_Example_M5Stick-CPlus2/ui.cpp:319-320 | returns at once on a drawn menu; otherwise the pending request is consumed and the menu drawn |
| Pages.StartWiFiScan | examples/Minu_Example_M5Stick-CPlus2/ui.cpp:314-354 | waits for the empty scan-result page to be drawn, fills it, and returns drawn with the redraw of the filled page pending; the task history is that of the page change |
| Pages.ScanPageHoldsResults | examples/Minu_Example_M5Stick-CPlus2/ui.cpp:314-354 | scanning from another page leaves exactly the networks found, in order, then the back item |
| Pages.InvokeLink | examples/Minu_Example_M5Stick-CPlus2/ui.cpp:273-301 | each `goTo...` link and `startWiFiAP` is the page change to its page; `startWiFiSTA` goes home iff connected and otherwise changes nothing; `startWiFiScan` ends drawn on the scan-result page; a null link changes nothing |
| Pages.LinkKeepsPageInvariants | examples/Minu_Example_M5Stick-CPlus2/ui.cpp:378-405 | after any link the live task belongs to the page on screen and the scan-result page is empty while away |
| System.InitialPages | examples/Minu_Example_M5Stick-CPlus2/ui.cpp:358-405 | six valid pages, an empty scan-result page and one ping item per target plus the back item |
| System.UiMenuInit | examples/Minu_Example_M5Stick-CPlus2/ui.cpp:356-420 | starts coherent on the home page with item 0 highlighted, no data task, and one ping item named after each target |
| System.HighlightNext | examples/Minu_Example_M5Stick-CPlus2/ui.cpp:449 | only the current page's highlight may change |
| Pages.Render | examples/Minu_Example_M5Stick-CPlus2/ui.cpp:632-635 | the menu is drawn; only a highlighted home Wi-Fi item changes colour, to the indicator colour; the task changes only where the page's rendered callback starts one |
| Pages.ScreenUpdate | examples/Minu_Example_M5Stick-CPlus2/ui.cpp:627-637 | waits exactly when no request is pending; otherwise consumes it and draws the current page |
| System.DataUpdateStep | examples/Minu_Example_M5Stick-CPlus2/ui.cpp:588-621 | a pass of the live task keeps the system coherent and changes targets only while the ping page is on screen; a ping pass leaves a render pending when it notified, and a time or fob-info pass changes nothing; no page's highlight moves, so the controller's bookkeeping stays in sync |
| System.CycleKeepsCoherent | examples/Minu_Example_M5Stick-CPlus2/ui.cpp:431-519 | every controller cycle keeps the system coherent, for any highlight policy and radio state |
| System.ScreenUpdateKeepsCoherent | examples/Minu_Example_M5Stick-CPlus2/ui.cpp:624-637 | every screen-update pass keeps the system coherent |
| System.SelectPingTargetsFromHome | examples/Minu_Example_M5Stick-CPlus2/ui.cpp:360 | choosing "Ping targets" with button B opens the ping page, creates only the ping task and requests a render |

## Left out

- Task creation, deletion, priorities and core pinning: each task is a step function, and stop is modelled as clearing the handle.
- The busy waits in `screenWatchTask` and `dataUpdateTask` and every `delay()`: the model runs each task step to completion, and the render those waits are for is the separate step `Pages.ScreenUpdate`. The two waits inside `startWiFiScan` are modelled (`Pages.AwaitRendered`).
- The unreachable end of `dataUpdateTask` (handle cleared, then self-delete): the loop never exits.
- LCD drawing and formatting: `lcdPrintTime`, `lcdPrintFobInfo` and `lcdPrintWiFiStatus` are display I/O. `lcdPrintWiFiStatus`, the Wi-Fi page's rendered callback, is a `NoEffect` callback; `lcdPrintTime` and `lcdPrintFobInfo`, called from `dataUpdateTask`, make the time and fob-info passes of `Worker.DataUpdate` leave the world unchanged.
- Wi-Fi mode changes, connecting, the soft AP, scanning and `Ping.ping` are network I/O. Their results are inputs (`Pages.Radio`, `PingSweep.Prober`).
- NTP and RTC time, and all of `utils.cpp`: clock I/O.
- The init failure path: `size_t` page ids are never negative, so it cannot be taken.
- The aux-colour reset in `startDataUpdate`: it acts on copies of the items and changes nothing stored.
- The copy of the highlighted item passed to its link: no link of the example reads its argument.
- Button C: its globals are declared but never written or read.
- Serial logging, stack checks and beeps.
- The menu library's own behaviour beyond the assumptions listed above: `minu.hpp` is not part of this model.
- Pages.InvokeLink: the `startWiFiSTA` and `startWiFiAP` radio calls are not modelled, only the page changes.
- Controller.Cycle: the menu operations are opaque parameters, so no wrap policy of `highlightNextItem` is assumed; the wait at the end of the cycle for the requested render is not part of the cycle.
- Pages.StartWiFiScan: requires the screen-update task, because without it the first wait never ends.

## Findings

| source | as written | input that shows it | evidently intended | confidence | as-written member | corrected member |
|---|---|---|---|---|---|---|
| examples/Minu_Example_M5Stick-CPlus2/ui.cpp:536 | `lastButtonADownTime + LONG_PRESS_THRESHOLD_MS < currentTime` is computed in a 32-bit `long`; the same test is at line 560 for B | after about 24.8 days of uptime: a press at 2^31-100 ms released at 2^31-50 ms (a 50 ms tap) is read as long; a press at 2^31-400 ms released at 2^31+50 ms (a 450 ms hold, with `currentTime` now negative) is read as short | the hold, measured by unsigned 32-bit subtraction, strictly exceeds 300 ms | not executed | Buttons.IsLongPressAsWritten (shown by Buttons.AsWrittenShortTapReadAsLong and Buttons.AsWrittenLongHoldReadAsShort) | Buttons.IsLongPress (proved by Buttons.LongPressDependsOnlyOnHold and Buttons.ThresholdBoundary) |

=== FILE: buttons.dfy ===
/** The button task (`buttonWatchTask`).  Every poll it reads the press and
    release edges of buttons A and B, remembers when each button went down, and
    turns each release into one pending short- or long-press flag that the UI
    controller consumes later.  The flags are single slots, not counters. */
module Buttons {
  import opened Clock

  /** `LONG_PRESS_THRESHOLD_MS` */
  const LongPressThresholdMs: int := 300

  /** What `wasPressed()` and `wasReleased()` report for one button in one poll. */
  datatype Edge = Edge(wasPressed: bool, wasReleased: bool)

  const NoEdge := Edge(false, false)
  const ReleaseEdge := Edge(false, true)
  const PressEdge := Edge(true, false)

  datatype Kind = ShortPress | LongPress

  /** One button: the time it last went down and its two pending-event flags. */
  datatype Button = Button(downTime: Long, longPress: bool, shortPress: bool)
  {
    /** The flag that a release of this kind raises. */
    predicate Pending(k: Kind) {
      match k
      case ShortPress => shortPress
      case LongPress => longPress
    }
  }

  /** Statically initialised globals: down time 0, no pending event. */
  const Idle := Button(0, false, false)

  /** The two buttons the example watches.  Button C's globals exist in the
      source but are never written or read. */
  datatype Panel = Panel(a: Button, b: Button)

  const IdlePanel := Panel(Idle, Idle)

  /** The test as the source writes it: `down + LONG_PRESS_THRESHOLD_MS < now`
      with the sum computed in a 32-bit `long`, which wraps near 2^31. */
  function IsLongPressAsWritten(down: Long, now: Long): bool {
    WrapLong(down + LongPressThresholdMs) < now
  }

  /** The test the source evidently means: the hold, measured with unsigned
      32-bit subtraction, is strictly longer than the threshold. */
  function IsLongPress(down: Long, now: Long): bool {
    ElapsedMs(down, now) > LongPressThresholdMs
  }

  function Classify(down: Long, now: Long): (k: Kind)
    ensures k == LongPress <==> ElapsedMs(down, now) > LongPressThresholdMs
  {
    if IsLongPress(down, now) then LongPress else ShortPress
  }

  /** Sets the pending flag of kind `k` and leaves the other one alone. */
  function Raise(b: Button, k: Kind): (r: Button)
    ensures r.Pending(k)
    ensures r.downTime == b.downTime
    ensures forall j :: j != k ==> r.Pending(j) == b.Pending(j)
  {
    match k
    case LongPress => b.(longPress := true)
    case ShortPress => b.(shortPress := true)
  }

  /** One button's part of a poll: a press edge records the time, then a
      release edge classifies the hold that ends now. */
  function Observe(b: Button, now: Long, e: Edge): (r: Button)
    ensures r.downTime == if e.wasPressed then now else b.downTime
    ensures !e.wasReleased ==> r == b.(downTime := r.downTime)
    ensures e.wasReleased ==> r.Pending(Classify(r.downTime, now))
    ensures forall k :: e.wasReleased && k != Classify(r.downTime, now) ==> r.Pending(k) == b.Pending(k)
  {
    var down := if e.wasPressed then now else b.downTime;
    var pressed := b.(downTime := down);
    if e.wasReleased then Raise(pressed, Classify(down, now)) else pressed
  }

  /** One iteration of the button task: both buttons see the same
      `currentTime = millis()`; neither button's edges touch the other. */
  function Poll(p: Panel, millis: U32, ea: Edge, eb: Edge): (r: Panel)
    ensures r.a == Observe(p.a, FromMillis(millis), ea)
    ensures r.b == Observe(p.b, FromMillis(millis), eb)
    ensures eb == NoEdge ==> r.b == p.b
    ensures ea == NoEdge ==> r.a == p.a
    ensures r.a.downTime == (if ea.wasPressed then FromMillis(millis) else p.a.downTime)
    ensures r.b.downTime == (if eb.wasPressed then FromMillis(millis) else p.b.downTime)
  {
    var now := FromMillis(millis);
    Panel(Observe(p.a, now, ea), Observe(p.b, now, eb))
  }

  /** A release of a button with nothing pending raises exactly one flag: the
      long one iff the hold exceeded the threshold. */
  lemma ReleaseRaisesExactlyOne(b: Button, now: Long, e: Edge)
    requires e.wasReleased
    requires !b.longPress && !b.shortPress
    ensures var r := Observe(b, now, e);
      && (r.longPress <==> ElapsedMs(r.downTime, now) > LongPressThresholdMs)
      && (r.shortPress <==> !r.longPress)
  {
  }

  /** A hold of exactly the threshold is a short press, one millisecond more is
      a long press, wherever on the counter the press happened. */
  lemma ThresholdBoundary(b: Button, down: Long)
    requires !b.longPress && !b.shortPress
    ensures var r := Observe(b.(downTime := down), WrapLong(down + LongPressThresholdMs), ReleaseEdge);
      r.shortPress && !r.longPress
    ensures var r := Observe(b.(downTime := down), WrapLong(down + LongPressThresholdMs + 1), ReleaseEdge);
      r.longPress && !r.shortPress
  {
    ElapsedAfterAdvance(down, LongPressThresholdMs);
    ElapsedAfterAdvance(down, LongPressThresholdMs + 1);
  }

  /** A press and a release seen in the same poll give a hold of 0 ms: short. */
  lemma SameTickIsShort(b: Button, now: Long)
    requires !b.longPress && !b.shortPress
    ensures var r := Observe(b, now, Edge(true, true));
      r.shortPress && !r.longPress && r.downTime == now
  {
  }

  /** A second release of the same kind before the controller consumes the
      first changes no flag: the event is lost, not counted. */
  lemma SecondReleaseIsLost(b: Button, now: Long, e: Edge)
    requires e.wasReleased
    requires b.Pending(Classify(if e.wasPressed then now else b.downTime, now))
    ensures var r := Observe(b, now, e);
      r.longPress == b.longPress && r.shortPress == b.shortPress
  {
  }

  /** The corrected test depends only on how long the button was held, so a
      hold of `e` ms is long iff `e` exceeds the threshold even across the
      counter's wrap. */
  lemma LongPressDependsOnlyOnHold(down: Long, e: U32)
    ensures IsLongPress(down, WrapLong(down + e)) <==> e > LongPressThresholdMs
  {
    ElapsedAfterAdvance(down, e);
  }

  /** Away from the wrap the corrected test and the source's comparison agree
      with the unbounded reading `down + 300 < now`. */
  lemma AsWrittenAgreesWithoutOverflow(down: Long, now: Long)
    requires down + LongPressThresholdMs < TwoTo31
    requires down <= now
    ensures IsLongPressAsWritten(down, now) == IsLongPress(down, now)
    ensures IsLongPress(down, now) <==> down + LongPressThresholdMs < now
  {
  }

  /** As written, a 50 ms tap that starts 100 ms before `long` overflows
      (about 24.8 days of uptime) is read as a long press. */
  lemma AsWrittenShortTapReadAsLong()
    ensures var down: Long := TwoTo31 - 100;
      var now: Long := TwoTo31 - 50;
      IsLongPressAsWritten(down, now) && !IsLongPress(down, now) && ElapsedMs(down, now) == 50
  {
  }

  /** As written, a 450 ms hold that straddles the point where `millis()`
      passes 2^31 (so `currentTime` turns negative) is read as a short press. */
  lemma AsWrittenLongHoldReadAsShort()
    ensures var down := FromMillis(TwoTo31 - 400);
      var now := FromMillis(TwoTo31 + 50);
      !IsLongPressAsWritten(down, now) && IsLongPress(down, now) && ElapsedMs(down, now) == 450
  {
  }
}

=== FILE: clock.dfy ===
/** Fixed-width integers of the ESP32 target.  `millis()` returns a 32-bit
    unsigned counter that wraps every 2^32 ms (about 49.7 days); the button task
    stores it in a `long`, which is a 32-bit two's-complement integer on this
    target. */
module Clock {

  const TwoTo31: int := 0x8000_0000
  const TwoTo32: int := 0x1_0000_0000

  /** An `unsigned long` / `uint32_t` value. */
  type U32 = x: int | 0 <= x < 0x1_0000_0000

  /** A `long` value on the ESP32. */
  type Long = x: int | -0x8000_0000 <= x < 0x8000_0000

  /** Reduces an arbitrary integer to the `long` that has the same bits, which is
      what an overflowing addition or a narrowing conversion yields on the target. */
  function WrapLong(x: int): (r: Long)
    ensures (r - x) % TwoTo32 == 0
    ensures -TwoTo31 <= x < TwoTo31 ==> r == x
  {
    (x + TwoTo31) % TwoTo32 - TwoTo31
  }

  /** `currentTime = millis()`: the unsigned counter stored in a signed `long`. */
  function FromMillis(m: U32): (r: Long)
    ensures (r - m) % TwoTo32 == 0
    ensures m < TwoTo31 ==> r == m
    ensures m >= TwoTo31 ==> r < 0
  {
    WrapLong(m)
  }

  /** The milliseconds from `down` to `now` counted the way an unsigned 32-bit
      subtraction counts them, so a wrap of the counter in between is harmless. */
  function ElapsedMs(down: Long, now: Long): (r: U32)
    ensures (down + r - now) % TwoTo32 == 0
    ensures down <= now ==> r == now - down
  {
    (now - down) % TwoTo32
  }

  /** Advancing a `long` by `e` milliseconds with wrap-around and measuring the
      elapsed time again gives back `e`, wherever on the counter the start lies. */
  lemma ElapsedAfterAdvance(down: Long, e: U32)
    ensures ElapsedMs(down, WrapLong(down + e)) == e
  {
    var now := WrapLong(down + e);
    var k := (down + e + TwoTo31) / TwoTo32;
    assert now == down + e - k * TwoTo32;
    assert now - down == e + (-k) * TwoTo32;
  }
}

=== FILE: controller.dfy ===
/** The UI controller: one iteration of `screenWatchTask`'s loop, as a step
    function.  The menu and everything a link can do to the rest of the device
    are opaque operations of an environment `Env<W>` over an arbitrary world
    type `W`, so the properties below hold for any menu implementation and any
    highlight wrap policy.  The busy-wait for the render to finish is not part
    of the step. */
module Controller {
  import opened Buttons

  /** The operations of the menu library and of the render channel that one
      controller cycle uses. */
  datatype Env<!W> = Env(
    currentPageId: W -> nat,
    highlightedIndex: W -> int,
    rendered: W -> bool,
    highlightNextItem: W -> W,
    highlightedHasLink: W -> bool,
    invokeHighlightedLink: W -> W,
    notifyRender: W -> W)

  /** The controller's local bookkeeping: the page and highlighted item it saw
      last, and whether it owes a render because the highlight moved. */
  datatype Tracking = Tracking(lastSelectedPage: int, lastHighlightedItem: int, updateScreen: bool)

  /** The shared press flags, the controller's bookkeeping and the world. */
  datatype State<W> = State(buttons: Panel, track: Tracking, world: W)

  datatype CycleResult<W> = CycleResult(state: State<W>, requested: bool)

  /** The tracking a controller starts with, and keeps after any cycle: it
      agrees with the menu it last looked at and owes nothing. */
  ghost predicate InSync<W>(t: Tracking, w: W, env: Env<W>) {
    && t.lastSelectedPage == env.currentPageId(w)
    && t.lastHighlightedItem == env.highlightedIndex(w)
    && !t.updateScreen
  }

  /** Task start: record the current page and highlighted item. */
  function Start<W>(w: W, env: Env<W>): (t: Tracking)
    ensures InSync(t, w, env)
  {
    Tracking(env.currentPageId(w), env.highlightedIndex(w), false)
  }

  /** True when any of the four events the controller consumes is pending. */
  predicate AnyPending(p: Panel) {
    p.a.shortPress || p.a.longPress || p.b.shortPress || p.b.longPress
  }

  /** Reference for what a cycle does to the menu: a pending short press of A
      advances the highlight once; then a pending long press of A or short press
      of B runs the highlighted item's link, if an item is highlighted and it
      has one.  A long press of B does nothing to the menu. */
  function Navigate<W>(p: Panel, w: W, env: Env<W>): W {
    var w1 := if p.a.shortPress then env.highlightNextItem(w) else w;
    if (p.a.longPress || p.b.shortPress) && env.highlightedIndex(w1) >= 0 && env.highlightedHasLink(w1)
    then env.invokeHighlightedLink(w1)
    else w1
  }

  /** Short press of A: highlight the next item and owe a render if the
      highlighted index now differs from the one last seen. */
  function AdvanceOnShortA<W>(s: State<W>, env: Env<W>): (r: State<W>)
    ensures !r.buttons.a.shortPress
    ensures r.buttons == s.buttons.(a := s.buttons.a.(shortPress := false))
    ensures r.track.lastSelectedPage == s.track.lastSelectedPage
    ensures r.track.lastHighlightedItem == s.track.lastHighlightedItem
    ensures !s.buttons.a.shortPress ==> r == s
    ensures s.buttons.a.shortPress ==> r.world == env.highlightNextItem(s.world)
    ensures s.buttons.a.shortPress ==>
      r.track.updateScreen == (s.track.updateScreen || env.highlightedIndex(r.world) != s.track.lastHighlightedItem)
  {
    if s.buttons.a.shortPress then
      var w := env.highlightNextItem(s.world);
      var moved := s.track.lastHighlightedItem != env.highlightedIndex(w);
      State(s.buttons.(a := s.buttons.a.(shortPress := false)),
            s.track.(updateScreen := s.track.updateScreen || moved),
            w)
    else s
  }

  /** Long press of A or short press of B: run the highlighted item's link when
      there is a highlighted item with a link, then clear both flags. */
  function ActivateOnSelect<W>(s: State<W>, env: Env<W>): (r: State<W>)
    ensures !r.buttons.a.longPress && !r.buttons.b.shortPress
    ensures r.buttons.a.shortPress == s.buttons.a.shortPress
    ensures r.buttons.b.longPress == s.buttons.b.longPress
    ensures r.buttons.a.downTime == s.buttons.a.downTime && r.buttons.b.downTime == s.buttons.b.downTime
    ensures r.track == s.track
    ensures !(s.buttons.a.longPress || s.buttons.b.shortPress) ==> r == s
    ensures r.world == if (s.buttons.a.longPress || s.buttons.b.shortPress)
                          && env.highlightedIndex(s.world) >= 0 && env.highlightedHasLink(s.world)
                       then env.invokeHighlightedLink(s.world)
                       else s.world
  {
    if s.buttons.a.longPress || s.buttons.b.shortPress then
      var w := if env.highlightedIndex(s.world) >= 0 && env.highlightedHasLink(s.world)
               then env.invokeHighlightedLink(s.world)
               else s.world;
      State(s.buttons.(a := s.buttons.a.(longPress := false), b := s.buttons.b.(shortPress := false)),
            s.track, w)
    else s
  }

  /** Long press of B: only cleared. */
  function DismissLongB<W>(s: State<W>): (r: State<W>)
    ensures !r.buttons.b.longPress
    ensures r.world == s.world && r.track == s.track && r.buttons.a == s.buttons.a
    ensures r.buttons.b.shortPress == s.buttons.b.shortPress && r.buttons.b.downTime == s.buttons.b.downTime
  {
    s.(buttons := s.buttons.(b := s.buttons.b.(longPress := false)))
  }

  /** Record the page and highlighted item now shown. */
  function Track<W>(s: State<W>, env: Env<W>): (r: State<W>)
    ensures r.track.lastSelectedPage == env.currentPageId(s.world)
    ensures r.track.lastHighlightedItem == env.highlightedIndex(s.world)
    ensures r.track.updateScreen == s.track.updateScreen
    ensures r.world == s.world && r.buttons == s.buttons
  {
    var t := if s.track.lastSelectedPage != env.currentPageId(s.world)
             then s.track.(lastSelectedPage := env.currentPageId(s.world),
                           lastHighlightedItem := env.highlightedIndex(s.world))
             else s.track;
    var t' := if t.lastHighlightedItem != env.highlightedIndex(s.world)
              then t.(lastHighlightedItem := env.highlightedIndex(s.world))
              else t;
    s.(track := t')
  }

  /** Request a render when one is owed or the menu has not been drawn yet. */
  function RequestRender<W>(s: State<W>, env: Env<W>): (r: CycleResult<W>)
    ensures r.requested <==> s.track.updateScreen || !env.rendered(s.world)
    ensures !r.state.track.updateScreen
    ensures r.state.world == if r.requested then env.notifyRender(s.world) else s.world
    ensures r.state.buttons == s.buttons
    ensures r.state.track.lastSelectedPage == s.track.lastSelectedPage
    ensures r.state.track.lastHighlightedItem == s.track.lastHighlightedItem
  {
    if s.track.updateScreen || !env.rendered(s.world) then
      CycleResult(State(s.buttons, s.track.(updateScreen := false), env.notifyRender(s.world)), true)
    else CycleResult(s, false)
  }

  /** One iteration of the controller loop.  Every pending event is consumed;
      the menu undergoes exactly the operations `Navigate` names; afterwards the
      bookkeeping names the page and item the cycle left, and a render is
      requested iff one was owed, the short press moved the highlight, or the
      menu is not drawn. */
  function Cycle<W>(s: State<W>, env: Env<W>): (r: CycleResult<W>)
    ensures !AnyPending(r.state.buttons)
    ensures r.state.buttons.a.downTime == s.buttons.a.downTime
    ensures r.state.buttons.b.downTime == s.buttons.b.downTime
    ensures var m := Navigate(s.buttons, s.world, env);
      && InSync(r.state.track, m, env)
      && r.state.world == (if r.requested then env.notifyRender(m) else m)
      && (r.requested <==>
            || s.track.updateScreen
            || (s.buttons.a.shortPress
                && env.highlightedIndex(env.highlightNextItem(s.world)) != s.track.lastHighlightedItem)
            || !env.rendered(m))
  {
    var s1 := AdvanceOnShortA(s, env);
    var s2 := ActivateOnSelect(s1, env);
    var s3 := DismissLongB(s2);
    var s4 := Track(s3, env);
    RequestRender(s4, env)
  }

  /** A cycle with nothing pending, in-sync bookkeeping and a drawn menu
      changes nothing and requests no render: the loop idles. */
  lemma IdleCycleChangesNothing<W>(s: State<W>, env: Env<W>)
    requires !AnyPending(s.buttons)
    requires InSync(s.track, s.world, env)
    requires env.rendered(s.world)
    ensures Cycle(s, env) == CycleResult(s, false)
  {
  }

  /** A short press of A from an idle, in-sync controller requests a render
      iff the highlighted index changed or the menu still needs drawing. */
  lemma ShortPressRendersOnlyOnChange<W>(s: State<W>, env: Env<W>)
    requires s.buttons.a.shortPress && !s.buttons.a.longPress
    requires !s.buttons.b.shortPress && !s.buttons.b.longPress
    requires InSync(s.track, s.world, env)
    ensures var next := env.highlightNextItem(s.world);
      Cycle(s, env).requested <==>
        env.highlightedIndex(next) != env.highlightedIndex(s.world) || !env.rendered(next)
  {
  }

  /** A long press of A and a short press of B pending together run the link
      once, not twice. */
  lemma SelectRunsLinkOnce<W>(s: State<W>, env: Env<W>)
    requires !s.buttons.a.shortPress
    requires s.buttons.a.longPress && s.buttons.b.shortPress
    requires env.highlightedIndex(s.world) >= 0 && env.highlightedHasLink(s.world)
    ensures Navigate(s.buttons, s.world, env) == env.invokeHighlightedLink(s.world)
  {
  }

  /** Two short taps of A (each a press at one poll and a release at a later
      one) that the button task sees before the controller runs leave the
      same state as the second tap alone, so the highlight advances once: the
      flag is a slot, not a counter. */
  lemma DoubleTapBeforeCycleAdvancesOnce<W>(p: Panel, t0: Clock.U32, t1: Clock.U32, t2: Clock.U32, t3: Clock.U32,
                                            track: Tracking, w: W, env: Env<W>)
    requires Classify(Clock.FromMillis(t0), Clock.FromMillis(t1)) == ShortPress
    requires Classify(Clock.FromMillis(t2), Clock.FromMillis(t3)) == ShortPress
    ensures var once := Poll(Poll(p, t2, PressEdge, NoEdge), t3, ReleaseEdge, NoEdge);
      var first := Poll(Poll(p, t0, PressEdge, NoEdge), t1, ReleaseEdge, NoEdge);
      var twice := Poll(Poll(first, t2, PressEdge, NoEdge), t3, ReleaseEdge, NoEdge);
      && once.a.shortPress
      && twice == once && Cycle(State(twice, track, w), env) == Cycle(State(once, track, w), env)
  {
  }
}

=== FILE: device.dfy ===
/** The example's shared state, gathered into one immutable record: the menu,
    the render request slot, the data-update task handle and the ping targets.
    Page ids are the order in which `uiMenuInit` adds the six pages (each page
    is constructed with `menu.numPages()` as its id). */
module Device {
  import opened Wrappers
  import opened Clock
  import opened Minu
  import RenderSignal

  const HomePageId: nat := 0
  const WiFiPageId: nat := 1
  const ScanResultPageId: nat := 2
  const PingTargetsPageId: nat := 3
  const TimePageId: nat := 4
  const FobInfoPageId: nat := 5
  const PageCount: nat := 6

  /** `UiUpdateType`: what the data-update task refreshes. */
  datatype UpdateType = Time | FobInfo | Ping

  /** One creation or deletion of the data-update task. */
  datatype TaskOp = Created(kind: UpdateType) | Deleted(kind: UpdateType)

  /** `PingTarget`: whom to ping, by address or by name, and the last result. */
  datatype PingTarget = PingTarget(
    displayHostname: string,
    useIP: bool,
    pingIP: U32,
    fqn: string,
    pinged: bool,
    pingOK: bool)

  /** `slot` is the screen-update task's notification value; `screenTask` says
      whether `screenUpdateTaskHandle` is set; `worker` is
      `dataUpdateTaskHandle` together with the kind the task was created with;
      `history` lists every creation and deletion of that task so far. */
  datatype World = World(
    menu: Menu,
    slot: nat,
    screenTask: bool,
    worker: Option<UpdateType>,
    history: seq<TaskOp>,
    targets: seq<PingTarget>)

  /** The shape every step keeps: the six pages, a current page among them,
      highlights in range, an item on the ping page for every target, and at
      most one pending render request. */
  predicate WellFormed(w: World) {
    && Minu.Valid(w.menu)
    && |w.menu.pages| == PageCount
    && |w.targets| <= |w.menu.pages[PingTargetsPageId].items|
    && w.slot <= 1
  }

  /** `if (screenUpdateTaskHandle) xTaskNotify(screenUpdateTaskHandle, 1,
      eSetValueWithOverwrite)`: a request, dropped while there is no
      screen-update task yet. */
  function RequestRender(w: World): (r: World)
    ensures r.slot == if w.screenTask then 1 else w.slot
    ensures r.(slot := w.slot) == w
    ensures WellFormed(w) ==> WellFormed(r)
  {
    if w.screenTask then w.(slot := RenderSignal.Notify(w.slot)) else w
  }

  /** Applies `f` to page `id`; no other page and nothing outside the pages
      changes. */
  function MapPage(w: World, id: nat, f: Page -> Page): (r: World)
    requires id < |w.menu.pages|
    ensures |r.menu.pages| == |w.menu.pages| && r.menu.pages[id] == f(w.menu.pages[id])
    ensures forall j :: 0 <= j < |w.menu.pages| && j != id ==> r.menu.pages[j] == w.menu.pages[j]
    ensures r.menu.current == w.menu.current && r.menu.rendered == w.menu.rendered
    ensures r.(menu := w.menu) == w
  {
    w.(menu := UpdatePage(w.menu, id, f(w.menu.pages[id])))
  }
}

=== FILE: menu.dfy ===
/** The part of the menu library the example relies on: pages of items, the
    current page, each page's highlighted item (-1 when none), and the
    `rendered()` flag.  The library itself (minu.hpp) is not part of this model;
    `highlightNextItem` stays opaque (a `Library` parameter with no wrap policy),
    and the few other operations are given the plain meaning their names and
    the example's use of them imply. */
module Minu {
  import opened Wrappers

  /** Background colours the example gives an item's auxiliary text:
      `MINU_BACKGROUND_COLOUR_DEFAULT`, `GREEN`, `RED` and `TFT_GREY`. */
  datatype Colour = BackgroundDefault | Green | Red | Grey

  /** The callbacks the example binds to items as their link, or none (NULL). */
  datatype Link =
    | NoLink
    | GoToHomePage
    | GoToWiFiPage
    | GoToPingTargetsPage
    | GoToTimePage
    | GoToFobInfoPage
    | StartWiFiSTA
    | StartWiFiAP
    | StartWiFiScan

  /** A menu item; NULL texts are `None`. */
  datatype Item = Item(link: Link, mainText: Option<string>, auxText: Option<string>, auxBackground: Colour)

  datatype Page = Page(items: seq<Item>, highlighted: int)

  /** The highlighted index names an item of the page, or is -1. */
  predicate ValidPage(p: Page) {
    -1 <= p.highlighted < |p.items|
  }

  datatype Menu = Menu(pages: seq<Page>, current: nat, rendered: bool)

  predicate Valid(m: Menu) {
    && m.current < |m.pages|
    && forall i :: 0 <= i < |m.pages| ==> ValidPage(m.pages[i])
  }

  /** The library's opaque behaviour: which index `highlightNextItem` moves to. */
  datatype Library = Library(nextIndex: Page -> int)

  /** The only thing assumed of `highlightNextItem`: it lands on an item of
      the page or on -1. */
  ghost predicate LibraryOk(lib: Library) {
    forall p: Page :: ValidPage(p) ==> -1 <= lib.nextIndex(p) < |p.items|
  }

  /** `highlightNextItem()` */
  function HighlightNextItem(p: Page, lib: Library): (r: Page)
    ensures r.items == p.items
    ensures LibraryOk(lib) && ValidPage(p) ==> ValidPage(r)
  {
    p.(highlighted := lib.nextIndex(p))
  }

  /** `highlightItem(i)`: selects item `i` when the page has it, otherwise
      leaves the page as it is. */
  function HighlightItem(p: Page, i: int): (r: Page)
    ensures r.items == p.items
    ensures 0 <= i < |p.items| ==> r.highlighted == i
    ensures !(0 <= i < |p.items|) ==> r == p
    ensures ValidPage(p) ==> ValidPage(r)
  {
    if 0 <= i < |p.items| then p.(highlighted := i) else p
  }

  /** `addItem(link, main, aux)`: appends; the highlight stays where it was. */
  function AddItem(p: Page, item: Item): (r: Page)
    ensures |r.items| == |p.items| + 1
    ensures r.items[..|p.items|] == p.items && r.items[|p.items|] == item
    ensures r.highlighted == p.highlighted
    ensures ValidPage(p) ==> ValidPage(r)
  {
    Page(p.items + [item], p.highlighted)
  }

  /** `removeAllItems()` */
  function RemoveAllItems(p: Page): (r: Page)
    ensures r.items == [] && ValidPage(r)
  {
    Page([], -1)
  }

  /** `items()[i].setAuxTextBackground(c)`: recolours item `i` in place. */
  function SetAuxBackground(p: Page, i: nat, c: Colour): (r: Page)
    requires i < |p.items|
    ensures |r.items| == |p.items| && r.highlighted == p.highlighted
    ensures r.items[i] == p.items[i].(auxBackground := c)
    ensures forall j :: 0 <= j < |p.items| && j != i ==> r.items[j] == p.items[j]
  {
    p.(items := p.items[i := p.items[i].(auxBackground := c)])
  }

  /** Replaces page `id`. */
  function UpdatePage(m: Menu, id: nat, p: Page): (r: Menu)
    requires id < |m.pages|
    ensures |r.pages| == |m.pages| && r.pages[id] == p
    ensures forall j :: 0 <= j < |m.pages| && j != id ==> r.pages[j] == m.pages[j]
    ensures r.current == m.current && r.rendered == m.rendered
    ensures Valid(m) && ValidPage(p) ==> Valid(r)
  {
    m.(pages := m.pages[id := p])
  }

  /** The switch inside `goToPage(id)`: page `id` becomes current and is not
      yet drawn.  The page hooks around it are run by the caller. */
  function SwitchTo(m: Menu, id: nat): (r: Menu)
    requires id < |m.pages|
    ensures r.current == id && !r.rendered && r.pages == m.pages
    ensures Valid(m) ==> Valid(r)
  {
    m.(current := id, rendered := false)
  }

  /** `currentPageId()` */
  function CurrentPageId(m: Menu): nat {
    m.current
  }

  /** `currentPage()->highlightedIndex()`; -1 if there were no current page. */
  function HighlightedIndex(m: Menu): (r: int)
    ensures Valid(m) ==> r == m.pages[m.current].highlighted
  {
    if m.current < |m.pages| then m.pages[m.current].highlighted else -1
  }

  /** `currentPage()->highlightedItem()`, when an item is highlighted. */
  function HighlightedItem(m: Menu): (r: Option<Item>)
    ensures Valid(m) ==> (r.Some? <==> HighlightedIndex(m) >= 0)
    ensures r.Some? ==>
      && m.current < |m.pages|
      && 0 <= HighlightedIndex(m) < |m.pages[m.current].items|
      && r.value == m.pages[m.current].items[HighlightedIndex(m)]
  {
    if m.current < |m.pages| && 0 <= m.pages[m.current].highlighted < |m.pages[m.current].items|
    then Some(m.pages[m.current].items[m.pages[m.current].highlighted])
    else None
  }
}

=== FILE: pages.dfy ===
/** The page wiring of the example: the callbacks `uiMenuInit` binds to each
    page, page transitions through `goToPage`, the item links, the Wi-Fi
    indicator colour and the population of the scan-result page.  Wi-Fi state
    and scan results are read from a `Radio` oracle, because the Wi-Fi calls
    themselves are network I/O. */
module Pages {
  import opened Wrappers
  import opened Minu
  import opened Device
  import opened Worker
  import RenderSignal

  /** What a page callback does to the world.  The callbacks that only log or
      draw (`pageClosedCallback`, `pageRenderedCallback`,
      `lcdPrintWiFiStatus`) are `NoEffect`. */
  datatype Hook = NoEffect | HighlightFirst | DeleteAllItems | StartData | StopData

  datatype PageHooks = PageHooks(onOpen: Hook, onClose: Hook, onRender: Hook)

  datatype HookPoint = Opened | Closed | Rendered

  /** The callbacks `uiMenuInit` registers on each page. */
  function HooksOf(page: nat): (r: PageHooks)
    ensures r.onOpen == StartData <==> page == PingTargetsPageId
    ensures r.onRender == StartData <==> page == TimePageId || page == FobInfoPageId
    ensures r.onClose == StopData <==> UpdateTypeFor(page).Some?
    ensures r.onClose == DeleteAllItems <==> page == ScanResultPageId
    ensures r.onOpen != StopData && r.onOpen != DeleteAllItems
    ensures r.onRender != StopData && r.onRender != DeleteAllItems && r.onRender != HighlightFirst
    ensures r.onClose != StartData && r.onClose != HighlightFirst
    ensures r.onOpen == HighlightFirst <==> page < PageCount && page != PingTargetsPageId
  {
    if page == HomePageId then PageHooks(HighlightFirst, NoEffect, NoEffect)
    else if page == WiFiPageId then PageHooks(HighlightFirst, NoEffect, NoEffect)
    else if page == ScanResultPageId then PageHooks(HighlightFirst, DeleteAllItems, NoEffect)
    else if page == PingTargetsPageId then PageHooks(StartData, StopData, NoEffect)
    else if page == TimePageId then PageHooks(HighlightFirst, StopData, StartData)
    else if page == FobInfoPageId then PageHooks(HighlightFirst, StopData, StartData)
    else PageHooks(NoEffect, NoEffect, NoEffect)
  }

  function HookAt(hooks: PageHooks, at: HookPoint): Hook {
    match at
    case Opened => hooks.onOpen
    case Closed => hooks.onClose
    case Rendered => hooks.onRender
  }

  /** `pageOpenedCallback(arg)`: highlight item 0 of the page it is handed,
      when there is one; a null argument does nothing. */
  function PageOpened(w: World, arg: Option<nat>): (r: World)
    requires WellFormed(w)
    requires arg.Some? ==> arg.value < PageCount
    ensures WellFormed(r)
    ensures arg.None? ==> r == w
    ensures arg.Some? ==>
      var before := w.menu.pages[arg.value];
      && r.menu.pages[arg.value].items == before.items
      && (|before.items| > 0 ==> r.menu.pages[arg.value].highlighted == 0)
      && (|before.items| == 0 ==> r == w)
      && (forall j :: 0 <= j < PageCount && j != arg.value ==> r.menu.pages[j] == w.menu.pages[j])
    ensures r.menu.current == w.menu.current && r.menu.rendered == w.menu.rendered
    ensures r.(menu := w.menu) == w
  {
    match arg
    case None => w
    case Some(page) => MapPage(w, page, p => HighlightItem(p, 0))
  }

  /** `deleteAllPageItems(arg)`: empty the page it is handed. */
  function DeleteAllPageItems(w: World, arg: Option<nat>): (r: World)
    requires WellFormed(w)
    requires arg.Some? ==> arg.value < PageCount && arg.value != PingTargetsPageId
    ensures WellFormed(r)
    ensures arg.None? ==> r == w
    ensures arg.Some? ==>
      && r.menu.pages[arg.value] == Page([], -1)
      && (forall j :: 0 <= j < PageCount && j != arg.value ==> r.menu.pages[j] == w.menu.pages[j])
    ensures r.menu.current == w.menu.current && r.menu.rendered == w.menu.rendered
    ensures r.(menu := w.menu) == w
  {
    match arg
    case None => w
    case Some(page) => MapPage(w, page, RemoveAllItems)
  }

  /** Runs the callback `page` has at hook point `at`. */
  function RunHook(w: World, page: nat, at: HookPoint): (r: World)
    requires WellFormed(w) && page < PageCount
    ensures WellFormed(r)
    ensures Lifecycle(w) ==> Lifecycle(r)
    ensures r.menu.current == w.menu.current && r.menu.rendered == w.menu.rendered
    ensures r.targets == w.targets && r.screenTask == w.screenTask
  {
    match HookAt(HooksOf(page), at)
    case NoEffect => w
    case HighlightFirst => PageOpened(w, Some(page))
    case DeleteAllItems => DeleteAllPageItems(w, Some(page))
    case StartData => StartDataUpdate(w)
    case StopData => StopDataUpdate(w)
  }

  /** A live data-update task always belongs to the page on screen. */
  predicate WorkerOwnedByPage(w: World) {
    w.worker.Some? ==> w.worker == UpdateTypeFor(w.menu.current)
  }

  /** The scan-result page is empty whenever it is not the current page: its
      close callback deletes its items. */
  predicate ScanPageClearedAway(w: World)
    requires WellFormed(w)
  {
    w.menu.current != ScanResultPageId ==> |w.menu.pages[ScanResultPageId].items| == 0
  }

  /** `menu.goToPage(id)`: the old page's close callback, the switch, then the
      new page's open callback. */
  function GoToPage(w: World, id: nat): (r: World)
    requires WellFormed(w) && id < PageCount
    ensures WellFormed(r)
    ensures r.menu.current == id && !r.menu.rendered
    ensures Lifecycle(w) ==> Lifecycle(r)
    ensures r.targets == w.targets && r.screenTask == w.screenTask
    ensures |r.menu.pages[id].items| > 0 ==> r.menu.pages[id].highlighted == 0
  {
    var w1 := RunHook(w, w.menu.current, Closed);
    var w2 := w1.(menu := SwitchTo(w1.menu, id));
    RunHook(w2, id, Opened)
  }

  /** Leaving a page stops its data-update task before the next page's open
      callback runs: the history gains the deletion of the old task first, and
      a creation only when the new page is the ping page.  Afterwards the live
      task, if any, belongs to the new page. */
  lemma PageChangeHandsOverWorker(w: World, id: nat)
    requires WellFormed(w) && id < PageCount
    requires WorkerOwnedByPage(w)
    ensures var r := GoToPage(w, id);
      && r.history == w.history
           + (if w.worker.Some? then [Deleted(w.worker.value)] else [])
           + (if id == PingTargetsPageId then [Created(Ping)] else [])
      && r.worker == (if id == PingTargetsPageId then Some(Ping) else None)
      && WorkerOwnedByPage(r)
  {
    var w1 := RunHook(w, w.menu.current, Closed);
    assert w1.worker.None?;
    assert w1.history == w.history + (if w.worker.Some? then [Deleted(w.worker.value)] else []);
  }

  /** The scan-result page stays empty while away across any page change. */
  lemma PageChangeClearsScanPage(w: World, id: nat)
    requires WellFormed(w) && id < PageCount
    requires ScanPageClearedAway(w)
    ensures ScanPageClearedAway(GoToPage(w, id))
  {
  }

  /** The Wi-Fi modes `WiFi.getMode()` reports. */
  datatype WiFiMode = ModeNull | ModeSta | ModeAp | ModeApSta

  /** What the Wi-Fi driver reports when asked: the mode, whether the station
      is connected, and the result of a scan (`n`, then each network's SSID
      and RSSI by index). */
  datatype Radio = Radio(mode: WiFiMode, connected: bool, scanCount: int, ssid: nat -> string, rssi: nat -> int)

  /** The colour `updateWiFiItem` gives the home page's Wi-Fi item. */
  function WiFiIndicator(mode: WiFiMode, connected: bool): (c: Colour)
    ensures c == Green <==> mode == ModeAp || (mode == ModeSta && connected)
    ensures c == Red <==> mode == ModeSta && !connected
    ensures c == Grey <==> mode != ModeAp && mode != ModeSta
  {
    if mode == ModeAp then Green
    else if mode == ModeSta then (if connected then Green else Red)
    else Grey
  }

  /** `updateWiFiItem(arg)`: recolour the item it is handed; null does nothing. */
  function UpdateWiFiItem(item: Option<Item>, radio: Radio): (r: Option<Item>)
    ensures item.None? <==> r.None?
    ensures r.Some? ==> r.value == item.value.(auxBackground := WiFiIndicator(radio.mode, radio.connected))
  {
    match item
    case None => None
    case Some(it) => Some(it.(auxBackground := WiFiIndicator(radio.mode, radio.connected)))
  }

  function DigitValue(c: char): int {
    c as int - '0' as int
  }

  /** The number a string of decimal digits spells, most significant first. */
  function DecimalValue(s: string): int
    decreases |s|
  {
    if s == [] then 0 else DecimalValue(s[..|s| - 1]) * 10 + DigitValue(s[|s| - 1])
  }

  /** Decimal digits of `n`, as Arduino's `String(int)` prints them: they spell
      `n`, and only zero itself starts with the digit 0. */
  function NatToDecimal(n: nat): (s: string)
    ensures |s| >= 1 && (|s| == 1 <==> n < 10)
    ensures forall i :: 0 <= i < |s| ==> '0' <= s[i] <= '9'
    ensures DecimalValue(s) == n
    ensures |s| > 1 ==> s[0] != '0'
    decreases n
  {
    var d := [(n % 10) as char + '0'];
    if n < 10 then d
    else
      var s := NatToDecimal(n / 10) + d;
      assert s[..|s| - 1] == NatToDecimal(n / 10);
      s
  }

  /** `String(x)` for a signed value: a minus sign exactly for negatives, then
      the digits of the magnitude. */
  function IntToDecimal(x: int): (s: string)
    ensures |s| >= 1
    ensures s[0] == '-' <==> x < 0
    ensures forall i :: 0 < i < |s| ==> '0' <= s[i] <= '9'
    ensures x < 0 ==> DecimalValue(s[1..]) == -x
    ensures x >= 0 ==> DecimalValue(s) == x
    ensures x < 0 ==> s[1..] == NatToDecimal(-x)
    ensures x >= 0 ==> s == NatToDecimal(x)
  {
    if x < 0 then
      var s := "-" + NatToDecimal(-x);
      assert s[1..] == NatToDecimal(-x);
      s
    else NatToDecimal(x)
  }

  /** The item added for the `i`-th network found. */
  function ScanItem(radio: Radio, i: nat): Item {
    Item(NoLink, Some(radio.ssid(i)), Some(IntToDecimal(radio.rssi(i))), BackgroundDefault)
  }

  /** The trailing item that leads back to the Wi-Fi page. */
  const BackToWiFi: Item := Item(GoToWiFiPage, Some("<--"), None, BackgroundDefault)

  /** The loop `for (i = 0; i < n; ++i) addItem(...)`: appends `item(i)` for
      the first `n` networks, in scan order. */
  function AddFound(p: Page, item: nat -> Item, n: nat): (r: Page)
    ensures |r.items| == |p.items| + n
    ensures r.items[..|p.items|] == p.items
    ensures forall i :: 0 <= i < n ==> r.items[|p.items| + i] == item(i)
    ensures r.highlighted == p.highlighted
    ensures ValidPage(p) ==> ValidPage(r)
    decreases n
  {
    if n == 0 then p else AddItem(AddFound(p, item, n - 1), item(n - 1))
  }

  /** The scan-result page after a scan: with `n > 0` networks the `n` found
      are appended in scan order; whatever `n` is (none found or an error),
      the back item is appended last. */
  function PopulateScanResults(p: Page, radio: Radio): (r: Page)
    ensures var found := if radio.scanCount > 0 then radio.scanCount else 0;
      && |r.items| == |p.items| + found + 1
      && r.items[..|p.items|] == p.items
      && (forall i :: 0 <= i < found ==> r.items[|p.items| + i] == ScanItem(radio, i))
      && r.items[|r.items| - 1] == BackToWiFi
    ensures r.highlighted == p.highlighted
    ensures ValidPage(p) ==> ValidPage(r)
  {
    var found := if radio.scanCount > 0 then radio.scanCount else 0;
    var item := (i: nat) => ScanItem(radio, i);
    var withFound := AddFound(p, item, found);
    var r := AddItem(withFound, BackToWiFi);
    forall i | 0 <= i < found
      ensures r.items[|p.items| + i] == ScanItem(radio, i)
    {
      assert r.items[|p.items| + i] == withFound.items[|p.items| + i] == item(i);
    }
    r
  }

  /** The item the home page's Wi-Fi entry is (`homepageWifiItem`). */
  const HomeWiFiItem: nat := 0

  /** `menu.render()`: draw, mark the menu rendered, then run the page's
      rendered callback, which on the time and fob-info pages starts their
      data-update task.  The home page's Wi-Fi item carries `updateWiFiItem`
      as its on-highlight render callback, so it is recoloured when it is
      drawn highlighted. */
  function Render(w: World, radio: Radio): (r: World)
    requires WellFormed(w)
    ensures WellFormed(r) && r.menu.rendered
    ensures r.menu.current == w.menu.current && r.slot == w.slot
    ensures r.targets == w.targets && r.screenTask == w.screenTask
    ensures Lifecycle(w) ==> Lifecycle(r)
    ensures HooksOf(w.menu.current).onRender != StartData ==> r.worker == w.worker && r.history == w.history
    ensures HooksOf(w.menu.current).onRender == StartData ==> r.worker == UpdateTypeFor(w.menu.current)
    ensures var home := w.menu.pages[HomePageId];
      !(w.menu.current == HomePageId && home.highlighted == HomeWiFiItem) ==> r.menu.pages == w.menu.pages
    ensures var home := w.menu.pages[HomePageId];
      w.menu.current == HomePageId && home.highlighted == HomeWiFiItem ==>
      var after := r.menu.pages[HomePageId];
      && |r.menu.pages| == |w.menu.pages|
      && (forall j :: 0 <= j < |w.menu.pages| && j != HomePageId ==> r.menu.pages[j] == w.menu.pages[j])
      && |after.items| == |home.items| && after.highlighted == home.highlighted
      && after.items[HomeWiFiItem] == home.items[HomeWiFiItem].(auxBackground := WiFiIndicator(radio.mode, radio.connected))
      && (forall j :: 0 <= j < |home.items| && j != HomeWiFiItem ==> after.items[j] == home.items[j])
  {
    var home := w.menu.pages[HomePageId];
    var drawn :=
      if w.menu.current == HomePageId && home.highlighted == HomeWiFiItem then
        var item := UpdateWiFiItem(Some(home.items[HomeWiFiItem]), radio).value;
        UpdatePage(w.menu, HomePageId, home.(items := home.items[HomeWiFiItem := item]))
      else w.menu;
    RunHook(w.(menu := drawn.(rendered := true)), w.menu.current, Rendered)
  }

  /** One pass of `screenUpdateTask`'s loop: `None` while it waits for a
      request; otherwise the request is consumed and, the value taken being 1,
      the menu is drawn. */
  function ScreenUpdate(w: World, radio: Radio): (r: Option<World>)
    requires WellFormed(w)
    ensures r.None? <==> w.slot == 0
    ensures r.Some? ==> r.value.slot == 0 && r.value.menu.rendered && r.value.menu.current == w.menu.current
    ensures r.Some? ==> WellFormed(r.value) && (Lifecycle(w) ==> Lifecycle(r.value))
  {
    match RenderSignal.Take(w.slot)
    case None => None
    case Some(t) =>
      RenderSignal.TakeFromSingleSlot(w.slot);
      var w1 := w.(slot := t.left);
      Some(if RenderSignal.Renders(t) then Render(w1, radio) else w1)
  }

  /** `while (!menu.rendered()) delay(10)`: returns at once when the menu is
      drawn; otherwise it returns once the screen-update task has taken the
      pending request and drawn. */
  function AwaitRendered(w: World, radio: Radio): (r: World)
    requires WellFormed(w)
    requires !w.menu.rendered ==> w.slot > 0
    ensures WellFormed(r) && r.menu.rendered && r.menu.current == w.menu.current
    ensures w.menu.rendered ==> r == w
    ensures !w.menu.rendered ==> r.slot == 0
    ensures Lifecycle(w) ==> Lifecycle(r)
    ensures r.targets == w.targets && r.screenTask == w.screenTask
  {
    if w.menu.rendered then w else Render(w.(slot := w.slot - 1), radio)
  }

  /** `startWiFiScan`: go to the scan-result page, ask for a render and wait
      until the empty page is drawn; scan; fill the page; ask for a render
      again and wait while the menu is not drawn.  The menu is still marked
      drawn from the first render, so the second wait returns at once and the
      redraw of the filled page is left pending.  The Wi-Fi mode changes and
      the status line are radio and display I/O.  Without the screen-update
      task the first wait never ends, so the task must exist. */
  function StartWiFiScan(w: World, radio: Radio): (r: World)
    requires WellFormed(w) && w.screenTask
    ensures WellFormed(r)
    ensures r.menu.current == ScanResultPageId && r.menu.rendered && r.slot == 1
    ensures Lifecycle(w) ==> Lifecycle(r)
    ensures r.screenTask == w.screenTask && r.targets == w.targets
    ensures r.worker == GoToPage(w, ScanResultPageId).worker
    ensures r.history == GoToPage(w, ScanResultPageId).history
  {
    var w0 := RequestRender(GoToPage(w, ScanResultPageId));
    var w1 := AwaitRendered(w0, radio);
    var filled := PopulateScanResults(w1.menu.pages[ScanResultPageId], radio);
    var w2 := RequestRender(w1.(menu := UpdatePage(w1.menu, ScanResultPageId, filled)));
    AwaitRendered(w2, radio)
  }

  /** Scanning from any other page leaves the scan-result page holding exactly
      the networks found, in scan order, then the back item; a scan that finds
      nothing or fails leaves only the back item. */
  lemma ScanPageHoldsResults(w: World, radio: Radio)
    requires WellFormed(w) && w.screenTask && ScanPageClearedAway(w)
    requires w.menu.current != ScanResultPageId
    ensures var items := StartWiFiScan(w, radio).menu.pages[ScanResultPageId].items;
      var found := if radio.scanCount > 0 then radio.scanCount else 0;
      && |items| == found + 1
      && (forall i :: 0 <= i < found ==> items[i] == ScanItem(radio, i))
      && items[found] == BackToWiFi
  {
    var w0 := RequestRender(GoToPage(w, ScanResultPageId));
    assert w0.menu.pages[ScanResultPageId].items == [];
    var w1 := AwaitRendered(w0, radio);
    assert w1.menu.pages == w0.menu.pages;
  }

  /** What running an item's link does to the world.  Each `goTo...` link
      opens its page; `startWiFiSTA` returns home when the station is already
      connected and otherwise only starts connecting (radio I/O);
      `startWiFiAP` starts the access point (radio I/O) and opens the Wi-Fi
      page; `startWiFiScan` ends on the scan-result page. */
  function InvokeLink(w: World, link: Link, radio: Radio): (r: World)
    requires WellFormed(w)
    requires link.StartWiFiScan? ==> w.screenTask
    ensures WellFormed(r)
    ensures Lifecycle(w) ==> Lifecycle(r)
    ensures r.targets == w.targets && r.screenTask == w.screenTask
    ensures link == NoLink ==> r == w
    ensures link == GoToHomePage ==> r == GoToPage(w, HomePageId)
    ensures link == GoToWiFiPage ==> r == GoToPage(w, WiFiPageId)
    ensures link == GoToPingTargetsPage ==> r == GoToPage(w, PingTargetsPageId)
    ensures link == GoToTimePage ==> r == GoToPage(w, TimePageId)
    ensures link == GoToFobInfoPage ==> r == GoToPage(w, FobInfoPageId)
    ensures link == StartWiFiSTA ==> r == if radio.connected then GoToPage(w, HomePageId) else w
    ensures link == StartWiFiAP ==> r == GoToPage(w, WiFiPageId)
    ensures link.StartWiFiScan? ==> r.menu.current == ScanResultPageId && r.menu.rendered
  {
    match link
    case NoLink => w
    case GoToHomePage => GoToPage(w, HomePageId)
    case GoToWiFiPage => GoToPage(w, WiFiPageId)
    case GoToPingTargetsPage => GoToPage(w, PingTargetsPageId)
    case GoToTimePage => GoToPage(w, TimePageId)
    case GoToFobInfoPage => GoToPage(w, FobInfoPageId)
    case StartWiFiSTA => if radio.connected then GoToPage(w, HomePageId) else w
    case StartWiFiAP => GoToPage(w, WiFiPageId)
    case StartWiFiScan => StartWiFiScan(w, radio)
  }

  /** Every link keeps the live task tied to the page on screen and the
      scan-result page empty while away. */
  lemma LinkKeepsPageInvariants(w: World, link: Link, radio: Radio)
    requires WellFormed(w) && WorkerOwnedByPage(w) && ScanPageClearedAway(w)
    requires link.StartWiFiScan? ==> w.screenTask
    ensures var r := InvokeLink(w, link, radio);
      WorkerOwnedByPage(r) && ScanPageClearedAway(r)
  {
    match link
    case NoLink =>
    case GoToHomePage => PageChangeHandsOverWorker(w, HomePageId); PageChangeClearsScanPage(w, HomePageId);
    case GoToWiFiPage => PageChangeHandsOverWorker(w, WiFiPageId); PageChangeClearsScanPage(w, WiFiPageId);
    case GoToPingTargetsPage => PageChangeHandsOverWorker(w, PingTargetsPageId); PageChangeClearsScanPage(w, PingTargetsPageId);
    case GoToTimePage => PageChangeHandsOverWorker(w, TimePageId); PageChangeClearsScanPage(w, TimePageId);
    case GoToFobInfoPage => PageChangeHandsOverWorker(w, FobInfoPageId); PageChangeClearsScanPage(w, FobInfoPageId);
    case StartWiFiSTA => PageChangeHandsOverWorker(w, HomePageId); PageChangeClearsScanPage(w, HomePageId);
    case StartWiFiAP => PageChangeHandsOverWorker(w, WiFiPageId); PageChangeClearsScanPage(w, WiFiPageId);
    case StartWiFiScan => PageChangeHandsOverWorker(w, ScanResultPageId);
  }
}

=== FILE: ping_sweep.dfy ===
/** `updatePingTargetsStatus`: one pass over the ping targets in index order.
    Each target is pinged by address or by name (the outcome comes from an
    oracle, since pinging is network I/O), marked as pinged with its result,
    its item on the ping page is coloured green or red, and a render is
    requested after every single target so results appear one by one. */
module PingSweep {
  import opened Sequences
  import opened Clock
  import opened Minu
  import opened Device
  import RenderSignal

  /** What `Ping.ping` is given: `pingIP` when `useIP`, else `fqn`. */
  datatype Address = ByIp(ip: U32) | ByName(fqn: string)

  function AddressOf(t: PingTarget): Address {
    if t.useIP then ByIp(t.pingIP) else ByName(t.fqn)
  }

  /** The oracle: the outcome of the `i`-th ping of the sweep, sent to `a`. */
  type Prober = (nat, Address) -> bool

  /** What the sweep does, in order: a ping of target `index`, or a render
      request. */
  datatype Event = Probed(index: nat, ok: bool) | Notified

  function ResultColour(ok: bool): Colour {
    if ok then Green else Red
  }

  /** The outcome of each target's ping, in target order. */
  function Results(targets: seq<PingTarget>, probe: Prober): (r: seq<bool>)
    ensures |r| == |targets|
    ensures forall i :: 0 <= i < |targets| ==> r[i] == probe(i, AddressOf(targets[i]))
  {
    seq(|targets|, i requires 0 <= i < |targets| => probe(i, AddressOf(targets[i])))
  }

  /** The events of handling target `i` with outcome `ok`. */
  function Entry(i: nat, ok: bool, notify: bool): seq<Event> {
    [Probed(i, ok)] + (if notify then [Notified] else [])
  }

  /** Reference log of a sweep whose outcomes are `results`. */
  function SweepLog(results: seq<bool>, notify: bool): seq<Event>
    decreases |results|
  {
    if results == [] then []
    else SweepLog(results[..|results| - 1], notify) + Entry(|results| - 1, results[|results| - 1], notify)
  }

  /** With the screen-update task present the log alternates: target `i`'s
      ping at position `2i`, its render request right after, in index order,
      so there is exactly one request per target. */
  lemma {:induction false} SweepLogOrder(results: seq<bool>)
    ensures var log := SweepLog(results, true);
      && |log| == 2 * |results|
      && (forall i :: 0 <= i < |results| ==> log[2 * i] == Probed(i, results[i]) && log[2 * i + 1] == Notified)
      && Count(log, Notified) == |results|
    decreases |results|
  {
    if results != [] {
      var n := |results| - 1;
      var prefix := results[..n];
      SweepLogOrder(prefix);
      var log := SweepLog(results, true);
      assert log == SweepLog(prefix, true) + [Probed(n, results[n]), Notified];
      forall i | 0 <= i < |results|
        ensures log[2 * i] == Probed(i, results[i]) && log[2 * i + 1] == Notified
      {
        if i < n {
          assert prefix[i] == results[i];
        }
      }
      CountAppend(SweepLog(prefix, true), [Probed(n, results[n]), Notified], Notified);
      assert [Probed(n, results[n]), Notified][1..] == [Notified];
      assert [Notified][1..] == [];
    }
  }

  /** Without a screen-update task the sweep still pings every target in
      order but requests nothing. */
  lemma {:induction false} SweepLogSilent(results: seq<bool>)
    ensures SweepLog(results, false) == seq(|results|, i requires 0 <= i < |results| => Probed(i, results[i]))
    decreases |results|
  {
    if results != [] {
      SweepLogSilent(results[..|results| - 1]);
    }
  }

  /** One sweep.  Every target ends pinged with the oracle's outcome for its
      own address; item `i` of the ping page is green iff that outcome is
      true, red otherwise; nothing else in the menu, the task handle or the
      other target fields changes; the log is the reference log. */
  method UpdatePingTargetsStatus(w: World, probe: Prober) returns (r: World, log: seq<Event>)
    requires WellFormed(w)
    ensures WellFormed(r)
    ensures |r.targets| == |w.targets|
    ensures forall i :: 0 <= i < |w.targets| ==>
      r.targets[i] == w.targets[i].(pinged := true, pingOK := probe(i, AddressOf(w.targets[i])))
    ensures var before := w.menu.pages[PingTargetsPageId];
      var after := r.menu.pages[PingTargetsPageId];
      && |after.items| == |before.items|
      && after.highlighted == before.highlighted
      && (forall i :: 0 <= i < |w.targets| ==>
            after.items[i] == before.items[i].(auxBackground := ResultColour(r.targets[i].pingOK)))
      && (forall i :: |w.targets| <= i < |before.items| ==> after.items[i] == before.items[i])
    ensures forall j :: 0 <= j < PageCount && j != PingTargetsPageId ==> r.menu.pages[j] == w.menu.pages[j]
    ensures r.menu.current == w.menu.current && r.menu.rendered == w.menu.rendered
    ensures r.worker == w.worker && r.history == w.history && r.screenTask == w.screenTask
    ensures r.slot == if w.screenTask && |w.targets| > 0 then 1 else w.slot
    ensures log == SweepLog(Results(w.targets, probe), w.screenTask)
  {
    var targets, page, slot;
    targets, page, slot, log := Sweep(w.targets, w.menu.pages[PingTargetsPageId], probe, w.screenTask, w.slot);
    r := w.(targets := targets, menu := UpdatePage(w.menu, PingTargetsPageId, page), slot := slot);
  }

  /** The loop of the sweep over the targets and the ping page's items. */
  method Sweep(targets0: seq<PingTarget>, before: Page, probe: Prober, notify: bool, slot0: nat)
    returns (targets: seq<PingTarget>, page: Page, slot: nat, log: seq<Event>)
    requires |targets0| <= |before.items|
    requires ValidPage(before) && slot0 <= 1
    ensures |targets| == |targets0|
    ensures forall j :: 0 <= j < |targets0| ==>
      targets[j] == targets0[j].(pinged := true, pingOK := probe(j, AddressOf(targets0[j])))
    ensures |page.items| == |before.items| && page.highlighted == before.highlighted && ValidPage(page)
    ensures forall j :: 0 <= j < |targets0| ==>
      page.items[j] == before.items[j].(auxBackground := ResultColour(targets[j].pingOK))
    ensures forall j :: |targets0| <= j < |before.items| ==> page.items[j] == before.items[j]
    ensures slot == if notify && |targets0| > 0 then 1 else slot0
    ensures log == SweepLog(Results(targets0, probe), notify)
  {
    var results := Results(targets0, probe);
    targets := targets0;
    page := before;
    slot := slot0;
    log := [];
    var i := 0;
    while i < |targets0|
      invariant 0 <= i <= |targets0|
      invariant |targets| == |targets0|
      invariant forall j :: 0 <= j < i ==> targets[j] == targets0[j].(pinged := true, pingOK := results[j])
      invariant forall j :: i <= j < |targets0| ==> targets[j] == targets0[j]
      invariant |page.items| == |before.items| && page.highlighted == before.highlighted
      invariant forall j :: 0 <= j < i ==> page.items[j] == before.items[j].(auxBackground := ResultColour(results[j]))
      invariant forall j :: i <= j < |before.items| ==> page.items[j] == before.items[j]
      invariant slot == if notify && i > 0 then 1 else slot0
      invariant log == SweepLog(results[..i], notify)
    {
      var ok := probe(i, AddressOf(targets[i]));
      targets := targets[i := targets[i].(pinged := true, pingOK := ok)];
      page := SetAuxBackground(page, i, ResultColour(ok));
      log := log + [Probed(i, ok)];
      if notify {
        slot := RenderSignal.Notify(slot);
        log := log + [Notified];
      }
      assert results[..i + 1][..i] == results[..i];
      i := i + 1;
    }
    assert results[..i] == results;
  }
}

=== FILE: render_signal.dfy ===
/** The render request channel: every `xTaskNotify(screenUpdateTaskHandle, 1,
    eSetValueWithOverwrite)` paired with the screen-update task's
    `ulTaskNotifyTake(false, portMAX_DELAY)`.  The task's notification value is
    one slot: a send overwrites it with 1, a take waits until it is non-zero,
    returns it and leaves it one lower.  Many sends before a take therefore
    yield one render, never a backlog. */
module RenderSignal {
  import opened Wrappers
  import opened Sequences

  /** A send: the value becomes 1 whatever it was. */
  function Notify(v: nat): (r: nat)
    ensures r == 1
  {
    1
  }

  datatype Taken = Taken(returned: nat, left: nat)

  /** A take with clear-on-exit false: blocks (`None`) while the value is 0,
      otherwise returns the value and decrements it. */
  function Take(v: nat): (r: Option<Taken>)
    ensures r.None? <==> v == 0
    ensures r.Some? ==> r.value.returned == v && r.value.left + 1 == v
  {
    if v == 0 then None else Some(Taken(v, v - 1))
  }

  /** The screen-update task draws the menu only when the value it took is 1. */
  predicate Renders(t: Taken) {
    t.returned == 1
  }

  /** Once the slot holds at most one request, every take that returns renders
      and leaves the slot empty. */
  lemma TakeFromSingleSlot(v: nat)
    requires v <= 1
    ensures Take(v).Some? ==> Renders(Take(v).value) && Take(v).value.left == 0
  {
  }

  /** What happens to the slot: a send from any task, or one pass of the
      screen-update task's loop. */
  datatype Op = Send | Receive

  datatype Outcome = Outcome(value: nat, renders: nat)

  /** Replays `ops` from slot value `v`, counting renders.  A receive on an
      empty slot is a blocked take: nothing happens until a send. */
  function Run(ops: seq<Op>, v: nat): (r: Outcome)
    decreases |ops|
  {
    if ops == [] then Outcome(v, 0)
    else if ops[0] == Send then Run(ops[1..], Notify(v))
    else match Take(v)
      case None => Run(ops[1..], v)
      case Some(t) =>
        var rest := Run(ops[1..], t.left);
        Outcome(rest.value, rest.renders + (if Renders(t) then 1 else 0))
  }

  function Repeat(op: Op, n: nat): (r: seq<Op>)
    ensures |r| == n
    ensures forall i :: 0 <= i < n ==> r[i] == op
  {
    seq(n, _ => op)
  }

  /** The slot never holds more than one request: there is no backlog. */
  lemma {:induction false} NoBacklog(ops: seq<Op>, v: nat)
    requires v <= 1
    ensures Run(ops, v).value <= 1
    decreases |ops|
  {
    if ops != [] {
      if ops[0] == Send {
        NoBacklog(ops[1..], Notify(v));
      } else if v == 0 {
        NoBacklog(ops[1..], v);
      } else {
        NoBacklog(ops[1..], v - 1);
      }
    }
  }

  /** Every render is paid for by a take, and by a send or the request that
      was already pending: renders never outnumber either. */
  lemma {:induction false} RendersBounded(ops: seq<Op>, v: nat)
    requires v <= 1
    ensures Run(ops, v).renders <= Count(ops, Receive)
    ensures Run(ops, v).renders <= v + Count(ops, Send)
    decreases |ops|
  {
    if ops != [] {
      if ops[0] == Send {
        RendersBounded(ops[1..], Notify(v));
      } else if v == 0 {
        RendersBounded(ops[1..], v);
      } else {
        RendersBounded(ops[1..], v - 1);
      }
    }
  }

  /** Receives on an empty slot block and render nothing. */
  lemma {:induction false} IdleReceivesRenderNothing(k: nat)
    ensures Run(Repeat(Receive, k), 0) == Outcome(0, 0)
    decreases k
  {
    if k > 0 {
      assert Repeat(Receive, k)[1..] == Repeat(Receive, k - 1);
      IdleReceivesRenderNothing(k - 1);
    }
  }

  /** Coalescing: any burst of `n >= 1` sends followed by any number `k >= 1`
      of receives renders exactly once and leaves the slot empty. */
  lemma {:induction false} BurstRendersOnce(n: nat, k: nat, v: nat)
    requires v <= 1
    requires n >= 1 && k >= 1
    ensures Run(Repeat(Send, n) + Repeat(Receive, k), v) == Outcome(0, 1)
    decreases n
  {
    var ops := Repeat(Send, n) + Repeat(Receive, k);
    assert ops[0] == Send;
    if n == 1 {
      assert ops[1..] == Repeat(Receive, k);
      assert ops[1..][1..] == Repeat(Receive, k - 1);
      IdleReceivesRenderNothing(k - 1);
    } else {
      assert ops[1..] == Repeat(Send, n - 1) + Repeat(Receive, k);
      BurstRendersOnce(n - 1, k, Notify(v));
    }
  }
}

=== FILE: sequences.dfy ===
/** Counting occurrences in a sequence, shared by the render channel's
    operation traces and the ping sweep's event log. */
module Sequences {

  /** The number of positions of `s` holding `x`. */
  function Count<T(==)>(s: seq<T>, x: T): (n: nat)
    ensures n <= |s|
  {
    if s == [] then 0 else (if s[0] == x then 1 else 0) + Count(s[1..], x)
  }

  lemma CountAppend<T>(a: seq<T>, b: seq<T>, x: T)
    ensures Count(a + b, x) == Count(a, x) + Count(b, x)
  {
    if a != [] {
      assert (a + b)[1..] == a[1..] + b;
      CountAppend(a[1..], b, x);
    } else {
      assert a + b == b;
    }
  }
}

=== FILE: system.dfy ===
/** The example put together: the menu built by `uiMenuInit`, one pass of the
    screen-update task, one pass of the data-update task, and the controller
    of module `Controller` instantiated on the device's world.  The invariant
    `Coherent` holds after initialisation and is kept by every step any task
    takes. */
module System {
  import opened Wrappers
  import opened Minu
  import opened Device
  import opened Worker
  import opened Pages
  import PingSweep
  import Controller

  /** The shape every task relies on: the menu is well formed, the
      data-update task history never overlapped two tasks, a live task
      belongs to the page on screen, and the scan-result page is empty while
      away. */
  ghost predicate Coherent(w: World) {
    && WellFormed(w)
    && Lifecycle(w)
    && WorkerOwnedByPage(w)
    && ScanPageClearedAway(w)
  }

  /** The six pages `uiMenuInit` adds, in order, before any is opened. */
  function InitialPages(targets: seq<PingTarget>): (pages: seq<Page>)
    ensures |pages| == PageCount
    ensures forall i :: 0 <= i < PageCount ==> ValidPage(pages[i])
    ensures |pages[PingTargetsPageId].items| == |targets| + 1
    ensures pages[ScanResultPageId].items == []
  {
    var home := [
      Item(GoToWiFiPage, Some("Wi-Fi"), Some(" "), BackgroundDefault),
      Item(GoToPingTargetsPage, Some("Ping targets"), None, BackgroundDefault),
      Item(GoToTimePage, Some("Time"), None, BackgroundDefault),
      Item(GoToFobInfoPage, Some("Fob Info"), None, BackgroundDefault)];
    var wifi := [
      Item(StartWiFiSTA, Some("Connect STA"), None, BackgroundDefault),
      Item(StartWiFiAP, Some("Start AP"), None, BackgroundDefault),
      Item(StartWiFiScan, Some("Scan"), None, BackgroundDefault),
      Item(GoToHomePage, Some("<--"), None, BackgroundDefault)];
    var ping := seq(|targets|, i requires 0 <= i < |targets| =>
                      Item(NoLink, Some(targets[i].displayHostname), Some(" "), BackgroundDefault))
                + [Item(GoToHomePage, Some("<--"), None, BackgroundDefault)];
    var back := [Item(GoToHomePage, None, None, BackgroundDefault)];
    [Page(home, -1), Page(wifi, -1), Page([], -1), Page(ping, -1), Page(back, -1), Page(back, -1)]
  }

  /** `uiMenuInit`: add the pages, start the three tasks (so render requests
      from here on reach the screen-update task), then go to the home page,
      whose open callback highlights its first item. */
  function UiMenuInit(targets: seq<PingTarget>): (r: World)
    ensures Coherent(r)
    ensures r.menu.current == HomePageId && !r.menu.rendered
    ensures r.menu.pages[HomePageId].highlighted == 0
    ensures r.worker.None? && r.history == [] && r.screenTask
    ensures r.targets == targets
    ensures |r.menu.pages[PingTargetsPageId].items| == |targets| + 1
    ensures forall i :: 0 <= i < |targets| ==>
      r.menu.pages[PingTargetsPageId].items[i].mainText == Some(targets[i].displayHostname)
  {
    var w := World(Menu(InitialPages(targets), HomePageId, false), 0, true, None, [], targets);
    GoToPage(w, HomePageId)
  }

  /** `highlightNextItem()` on the current page. */
  function HighlightNext(w: World, lib: Library): (r: World)
    ensures r.(menu := w.menu) == w
    ensures r.menu.current == w.menu.current && r.menu.rendered == w.menu.rendered
    ensures |r.menu.pages| == |w.menu.pages|
    ensures forall j :: 0 <= j < |w.menu.pages| ==> r.menu.pages[j].items == w.menu.pages[j].items
    ensures forall j :: 0 <= j < |w.menu.pages| && j != w.menu.current ==> r.menu.pages[j] == w.menu.pages[j]
    ensures LibraryOk(lib) && WellFormed(w) ==> WellFormed(r)
  {
    if w.menu.current < |w.menu.pages| then MapPage(w, w.menu.current, p => HighlightNextItem(p, lib)) else w
  }

  /** The highlighted item's link, when an item is highlighted. */
  function HighlightedLink(w: World): Link {
    match HighlightedItem(w.menu)
    case None => NoLink
    case Some(item) => item.link
  }

  /** The menu library and the render channel as the controller sees them on
      this device; `radio` is what the Wi-Fi driver reports while the links
      run. */
  function UiEnv(radio: Radio, lib: Library): Controller.Env<World> {
    Controller.Env(
      (w: World) => w.menu.current,
      (w: World) => HighlightedIndex(w.menu),
      (w: World) => w.menu.rendered,
      (w: World) => HighlightNext(w, lib),
      (w: World) => HighlightedLink(w) != NoLink,
      (w: World) => if WellFormed(w) && (HighlightedLink(w).StartWiFiScan? ==> w.screenTask)
                    then InvokeLink(w, HighlightedLink(w), radio) else w,
      (w: World) => Device.RequestRender(w))
  }

  /** One pass of the data-update task's loop, for the live task. */
  method DataUpdateStep(w: World, probe: PingSweep.Prober) returns (r: World)
    requires Coherent(w) && w.worker.Some?
    ensures Coherent(r)
    ensures r.targets != w.targets ==> w.menu.current == PingTargetsPageId
    ensures r.menu.current == w.menu.current
    ensures w.worker == Some(Ping) ==> r.slot == (if w.screenTask && |w.targets| > 0 then 1 else w.slot)
    ensures w.worker != Some(Ping) ==> r == w
    ensures forall j :: 0 <= j < PageCount ==> r.menu.pages[j].highlighted == w.menu.pages[j].highlighted
  {
    r := DataUpdate(w, w.worker.value, probe);
  }

  /** Every controller cycle keeps the system coherent, whatever the library's
      highlight policy (within the page) and whatever the radio reports. */
  lemma CycleKeepsCoherent(s: Controller.State<World>, radio: Radio, lib: Library)
    requires Coherent(s.world) && LibraryOk(lib)
    ensures Coherent(Controller.Cycle(s, UiEnv(radio, lib)).state.world)
  {
    var env := UiEnv(radio, lib);
    var w1 := if s.buttons.a.shortPress then HighlightNext(s.world, lib) else s.world;
    assert Coherent(w1);
    var m := Controller.Navigate(s.buttons, s.world, env);
    if m != w1 {
      LinkKeepsPageInvariants(w1, HighlightedLink(w1), radio);
    }
    assert Coherent(m);
  }

  /** Every pass of the screen-update task keeps the system coherent. */
  lemma ScreenUpdateKeepsCoherent(w: World, radio: Radio)
    requires Coherent(w) && w.slot > 0
    ensures Coherent(ScreenUpdate(w, radio).value)
  {
  }

  /** Choosing "Ping targets" on the home page with button B opens the ping
      page, starts exactly the ping task (stopping nothing, since the home page
      owns none) and requests a render. */
  lemma SelectPingTargetsFromHome(s: Controller.State<World>, radio: Radio, lib: Library)
    requires Coherent(s.world)
    requires s.world.menu.current == HomePageId && s.world.screenTask
    requires HighlightedLink(s.world) == GoToPingTargetsPage
    requires s.buttons.b.shortPress && !s.buttons.a.shortPress
    ensures var r := Controller.Cycle(s, UiEnv(radio, lib));
      && r.state.world.menu.current == PingTargetsPageId
      && r.state.world.worker == Some(Ping)
      && r.state.world.history == s.world.history + [Created(Ping)]
      && r.requested && r.state.world.slot == 1
  {
    PageChangeHandsOverWorker(s.world, PingTargetsPageId);
  }
}

=== FILE: worker.dfy ===
/** The data-update task's lifecycle: `startDataUpdate`, `stopDataUpdate` and
    the dispatch inside `dataUpdateTask`.  The task handle is the world's
    `worker`; every creation and deletion is appended to the world's
    `history`, and `Replay` reads that history back to show that no two tasks
    were ever alive at once. */
module Worker {
  import opened Wrappers
  import opened Minu
  import opened Device
  import PingSweep

  /** The kind of data a page refreshes, by the current page id, checked in
      the order time, fob info, ping. */
  function UpdateTypeFor(page: nat): (r: Option<UpdateType>)
    ensures r == Some(Time) <==> page == TimePageId
    ensures r == Some(FobInfo) <==> page == FobInfoPageId
    ensures r == Some(Ping) <==> page == PingTargetsPageId
    ensures r.None? <==> page != TimePageId && page != FobInfoPageId && page != PingTargetsPageId
  {
    if page == TimePageId then Some(Time)
    else if page == FobInfoPageId then Some(FobInfo)
    else if page == PingTargetsPageId then Some(Ping)
    else None
  }

  /** One task operation applied to the live task: `None` when it creates a
      task while one is alive or deletes one that is not the live one. */
  function Apply(live: Option<UpdateType>, op: TaskOp): Option<Option<UpdateType>> {
    match op
    case Created(k) => if live.None? then Some(Some(k)) else None
    case Deleted(k) => if live == Some(k) then Some(None) else None
  }

  /** Replays a history from "no task": the task alive at its end, or `None`
      if at some instant two tasks would have been alive (or a task that was
      not alive was deleted). */
  function Replay(h: seq<TaskOp>): Option<Option<UpdateType>>
    decreases |h|
  {
    if h == [] then Some(None)
    else match Replay(h[..|h| - 1])
      case None => None
      case Some(live) => Apply(live, h[|h| - 1])
  }

  /** Creations minus deletions: the number of tasks alive after `h`. */
  function LiveCount(h: seq<TaskOp>): int
    decreases |h|
  {
    if h == [] then 0
    else LiveCount(h[..|h| - 1]) + (if h[|h| - 1].Created? then 1 else -1)
  }

  /** The lifecycle invariant: the history never overlapped two tasks and the
      handle names the one task that is alive. */
  ghost predicate Lifecycle(w: World) {
    Replay(w.history) == Some(w.worker)
  }

  lemma ReplayAppend(h: seq<TaskOp>, op: TaskOp)
    ensures Replay(h + [op]) == match Replay(h) case None => None case Some(live) => Apply(live, op)
    ensures LiveCount(h + [op]) == LiveCount(h) + (if op.Created? then 1 else -1)
  {
    assert (h + [op])[..|h|] == h;
  }

  /** A history that replays cleanly had, at every instant, at most one task
      alive, and the count of live tasks at its end matches the handle. */
  lemma {:induction false} AtMostOneWorker(h: seq<TaskOp>, k: nat)
    requires Replay(h).Some?
    requires k <= |h|
    ensures Replay(h[..k]).Some?
    ensures 0 <= LiveCount(h[..k]) <= 1
    ensures LiveCount(h) == if Replay(h).value.Some? then 1 else 0
    decreases |h|
  {
    if h != [] {
      var init := h[..|h| - 1];
      assert h == init + [h[|h| - 1]];
      ReplayAppend(init, h[|h| - 1]);
      if k == |h| {
        assert h[..k] == h;
        AtMostOneWorker(init, |init|);
        assert init[..|init|] == init;
      } else {
        assert h[..k] == init[..k];
        AtMostOneWorker(init, k);
        AtMostOneWorker(init, |init|);
        assert init[..|init|] == init;
      }
    }
  }

  /** `stopDataUpdate`: delete the task if there is one; the handle is null
      afterwards.  Nothing but the handle and its history changes. */
  function StopDataUpdate(w: World): (r: World)
    ensures r.worker.None?
    ensures w.worker.None? ==> r == w
    ensures w.worker.Some? ==> r == w.(worker := None, history := w.history + [Deleted(w.worker.value)])
    ensures Lifecycle(w) ==> Lifecycle(r)
    ensures WellFormed(w) ==> WellFormed(r)
  {
    match w.worker
    case None => w
    case Some(k) =>
      ReplayAppend(w.history, Deleted(k));
      w.(worker := None, history := w.history + [Deleted(k)])
  }

  /** Stopping twice is stopping once. */
  lemma StopIsIdempotent(w: World)
    ensures StopDataUpdate(StopDataUpdate(w)) == StopDataUpdate(w)
  {
  }

  /** The operations `startDataUpdate` performs on a page that owns a task of
      kind `k`: delete the existing task first, then create the new one. */
  function Restart(live: Option<UpdateType>, k: UpdateType): (ops: seq<TaskOp>)
    ensures |ops| == if live.Some? then 2 else 1
    ensures ops[|ops| - 1] == Created(k)
    ensures forall i :: 0 <= i < |ops| - 1 ==> ops[i].Deleted?
  {
    (if live.Some? then [Deleted(live.value)] else []) + [Created(k)]
  }

  /** `startDataUpdate`.  On a page that owns no task nothing changes.  On the
      time, fob-info or ping page the old task is deleted before the task of
      that page's kind is created, so the lifecycle invariant survives.  On the
      ping page item 0 is highlighted and a render requested first (the colour
      reset in between acts on copies of the items and changes nothing). */
  function StartDataUpdate(w: World): (r: World)
    requires WellFormed(w)
    ensures WellFormed(r)
    ensures UpdateTypeFor(w.menu.current).None? ==> r == w
    ensures UpdateTypeFor(w.menu.current).Some? ==>
      && r.worker == UpdateTypeFor(w.menu.current)
      && r.history == w.history + Restart(w.worker, r.worker.value)
    ensures Lifecycle(w) ==> Lifecycle(r)
    ensures r.menu.current == w.menu.current && r.menu.rendered == w.menu.rendered
    ensures r.targets == w.targets && r.screenTask == w.screenTask
    ensures w.menu.current != PingTargetsPageId ==> r.menu == w.menu && r.slot == w.slot
    ensures w.menu.current == PingTargetsPageId ==>
      && r.menu == UpdatePage(w.menu, PingTargetsPageId, HighlightItem(w.menu.pages[PingTargetsPageId], 0))
      && r.slot == (if w.screenTask then 1 else w.slot)
  {
    match UpdateTypeFor(w.menu.current)
    case None => w
    case Some(k) =>
      var w1 := if k == Ping
                then RequestRender(w.(menu := UpdatePage(w.menu, w.menu.current, HighlightItem(w.menu.pages[w.menu.current], 0))))
                else w;
      var w2 := StopDataUpdate(w1);
      ReplayAppend(w2.history, Created(k));
      assert w2.history + [Created(k)] == w.history + Restart(w.worker, k);
      w2.(worker := Some(k), history := w2.history + [Created(k)])
  }

  /** One pass of `dataUpdateTask`'s loop for a task of kind `kind`: the time
      and fob-info kinds only print (display and clock I/O, which leave the
      world as it is); the ping kind runs the ping sweep. */
  method DataUpdate(w: World, kind: UpdateType, probe: PingSweep.Prober) returns (r: World)
    requires WellFormed(w)
    ensures WellFormed(r)
    ensures kind != Ping ==> r == w
    ensures kind == Ping ==>
      && |r.targets| == |w.targets|
      && (forall i :: 0 <= i < |w.targets| ==>
           r.targets[i] == w.targets[i].(pinged := true, pingOK := probe(i, PingSweep.AddressOf(w.targets[i]))))
      && |r.menu.pages[PingTargetsPageId].items| == |w.menu.pages[PingTargetsPageId].items|
      && (forall i :: 0 <= i < |w.targets| ==>
           r.menu.pages[PingTargetsPageId].items[i]
             == w.menu.pages[PingTargetsPageId].items[i].(auxBackground := PingSweep.ResultColour(r.targets[i].pingOK)))
      && r.slot == (if w.screenTask && |w.targets| > 0 then 1 else w.slot)
      && r.menu.pages[PingTargetsPageId].highlighted == w.menu.pages[PingTargetsPageId].highlighted
      && (forall i :: |w.targets| <= i < |w.menu.pages[PingTargetsPageId].items| ==>
           r.menu.pages[PingTargetsPageId].items[i] == w.menu.pages[PingTargetsPageId].items[i])
    ensures r.worker == w.worker && r.history == w.history && r.screenTask == w.screenTask
    ensures r.menu.current == w.menu.current && r.menu.rendered == w.menu.rendered
    ensures forall j :: 0 <= j < PageCount && j != PingTargetsPageId ==> r.menu.pages[j] == w.menu.pages[j]
  {
    if kind == Ping {
      var log;
      r, log := PingSweep.UpdatePingTargetsStatus(w, probe);
    } else {
      r := w;
    }
  }
}

=== FILE: wrappers.dfy ===
/** The optional value used throughout the model in place of a null pointer or a
    missing result. */
module Wrappers {

  datatype Option<+T> = None | Some(value: T)
}
